=== FILE: README.md ===
# claude-hooks decision layer in Dafny

This project models the deterministic part of three command-line hooks for an
AI coding assistant's event system:

- the **logger** (`claude_hooks/logger.py`) stamps a JSON event with the time and appends it as one line to a JSON-Lines file;
- the **notifier** (`claude_hooks/notifier.py`) turns `--title`/`--message` flags and a JSON event into a desktop notification, picks the terminal to activate, and falls back to an AppleScript notification;
- the **lint runner** (`claude_hooks/ruff.py`) takes a file list from its JSON input, keeps the `.py` files, and runs `ruff check` (or `ruff check --fix`) on them, turning the outcome into an exit status.

Everything the hooks do to the outside world becomes a parameter or a result.
Reading stdin is a `stdin: string` argument. `json.loads` is a `parse: string -> Parse` function that returns a value or a decode-error message, and `json.dumps` is a `dumps: Json -> string` function. The clock is an opaque `now: string`. Each subprocess (`ps`, `terminal-notifier`, `osascript`, `ruff --version`, `ruff check`) is an outcome datatype passed in. The models return the argument vectors they would start, the lines they would print, and the exit status.

Modules, one file each:

| file | module | models |
|---|---|---|
| `wrappers.dfy` | `Wrappers` | `Option`, `Result` |
| `text.dfy` | `Text` | `str.strip()`, ASCII `str.lower()`, substring `in`, `str.join`, character counts |
| `json.dfy` | `Json` | parsed JSON values; objects as ordered member lists with dict `get`/`in`/assignment; Python truthiness |
| `paths.dfy` | `Paths` | `PurePosixPath.name` and `.suffix`, hence `is_python_file` |
| `quoting.dfy` | `Quoting` | the notifier's quote escaping, AppleScript string-literal reading, a corrected quoting |
| `notifier.dfy` | `Notifier` | title/text derivation, terminal lookup, dispatch |
| `ruff.dfy` | `Ruff` | file-list extraction, `.py` filter, `ruff` argv, `run_ruff`/`main` decision flow |
| `logger.dfy` | `Logger` | entry construction, the append-only log file, the confirmation line |

The logger's diagnostic record stores the stripped input as `raw_input` (`logger.py:23,35`).

## Model

| member | source | states |
|---|---|---|
| Text.Strip | claude_hooks/logger.py:23 | the result is the input with its leading and trailing Python whitespace removed and nothing else: a contiguous slice whose ends are not whitespace and whose surroundings are all whitespace |
| Text.StripEmptyIff | claude_hooks/notifier.py:80-82 | stripped input is empty exactly when every character is whitespace, so `if input_data:` is false exactly for blank stdin |
| Text.StripIdempotent | claude_hooks/logger.py:23 | a law of the strip model: stripping an already stripped text changes nothing |
| Text.Contains | claude_hooks/notifier.py:33 | `k in s` holds exactly when `k` occurs at some index of `s` |
| Text.ContainsExtension | claude_hooks/notifier.py:33 | if a key extended by more text occurs in a name, the key itself occurs there |
| Json.Truthy | claude_hooks/ruff.py:19 | Python's `bool()` of a parsed value: `null`, `false`, zero, and the empty string, list and object are false, everything else true; it decides `if not files` here and at ruff.py:111 |
| Json.Get | claude_hooks/ruff.py:99-106 | `d.get(key)` is absent exactly when no member has that key, and a present value belongs to a member with that key |
| Json.Put | claude_hooks/logger.py:29 | after `d[key] = v` the key maps to `v` and every other key maps to what it mapped to before |
| Json.PutKeys | claude_hooks/logger.py:29 | assignment keeps the key order, appending the key last only when it was absent |
| Json.PutUnique | claude_hooks/logger.py:29 | assignment never creates a duplicate key |
| Paths.IsPythonFile | claude_hooks/ruff.py:11-14 | `is_python_file`: the suffix of the path's final component (from its last dot, unless that dot starts or ends the name) is exactly `.py` |
| Paths.PythonFileIff | claude_hooks/ruff.py:11-14 | a path is a Python file exactly when its final component is at least four characters long and ends in `.py` (case-sensitive) |
| Paths.NameOfPlainName | claude_hooks/ruff.py:13 | a non-empty path with no `/` other than `.` is its own final component |
| Paths.PythonFileExamples | claude_hooks/ruff.py:11-14 | `a.py` is a Python file; `.py`, `a.PY` and `b.txt` are not |
| Ruff.PythonFiles | claude_hooks/ruff.py:31 | the filter keeps exactly the Python entries, each with its full multiplicity, and nothing else |
| Ruff.PythonFilesInOrder | claude_hooks/ruff.py:31 | the kept entries are a subsequence of the input: relative order is preserved |
| Ruff.PythonFilesAppend | claude_hooks/ruff.py:31 | filtering a concatenation is the concatenation of the filtered parts |
| Ruff.Command | claude_hooks/ruff.py:37-46 | check and fix are the only accepted modes; the argv starts `ruff check`, contains `--fix` before the files exactly in fix mode, and ends with the Python files |
| Ruff.CheckCommandExample | claude_hooks/ruff.py:37-46 | check mode on `a.py` runs `ruff check a.py` |
| Ruff.Iterate | claude_hooks/ruff.py:31 | only lists, strings and objects can be iterated: a list yields its items, a string its one-character strings, an object its keys, each in order; an iterable yields nothing exactly when it is falsy |
| Ruff.Entries | claude_hooks/ruff.py:31 | iterating the file list fails exactly for a value that is not a list, string or object; a string's characters and an object's keys always make paths, a list's items exactly when all are strings, each item being its path; no entries exactly for a falsy value |
| Ruff.AsPaths | claude_hooks/ruff.py:13 | the entries are accepted as paths exactly when every one is a string, and then the strings are the entries in order |
| Ruff.RunRuff | claude_hooks/ruff.py:17-68 | a falsy list succeeds with nothing started; otherwise the probe is started first; the lint command runs only after a good probe, on the non-empty Python subset, and under exactly those conditions with a known mode it is started; success holds exactly for a falsy list, an all-non-Python list after a good probe, or a lint exit code of 0 |
| Ruff.FilesOf | claude_hooks/ruff.py:96-109 | `files` wins as is, then `file`, then `file_path` as one-element lists; a list is used as is; anything else gives an empty list |
| Ruff.ModeOf | claude_hooks/ruff.py:79-82 | the mode is `fix` exactly when `--fix` is given, whatever `--check` says |
| Ruff.Main | claude_hooks/ruff.py:84-124 | exit status is 0 or 1; blank stdin, malformed JSON and an empty file list each exit 1 before anything is started; otherwise exit 0 exactly when `run_ruff` succeeds; whenever the input parses to a truthy file list, the commands started are exactly those of `run_ruff` |
| Ruff.MixedListExample | claude_hooks/ruff.py:31-46 | `{"files": ["a.py", "b.txt"]}` starts the probe and then `ruff check a.py` |
| Ruff.NoPythonListExample | claude_hooks/ruff.py:31-34 | `{"files": ["b.txt"]}` succeeds after the probe without starting the lint command |
| Ruff.EntriesOfStrings | claude_hooks/ruff.py:31 | a list of strings yields those strings as path entries |
| Notifier.Or | claude_hooks/notifier.py:88 | `flag or default` gives the flag when it is non-empty and the default otherwise |
| Notifier.Truncate | claude_hooks/notifier.py:95-96 | a command of at most 50 characters is unchanged; a longer one becomes exactly 50 characters: its first 47 then `...` |
| Notifier.Message | claude_hooks/notifier.py:93-105 | the text is `Command: <cmd> \| Status: <status>`, or whichever of the two parts is non-empty, or `Hook executed` when both are empty |
| Notifier.Field | claude_hooks/notifier.py:84-86 | an absent key gives the default; a string value is taken as it is; a non-string value gives no text |
| Notifier.ReadEvent | claude_hooks/notifier.py:84-86 | only an object yields an event, and an object whose `tool`, `command` and `status` are absent or text always does; the event's fields are those values, with `tool` defaulting to `Unknown` and the others to empty text |
| Notifier.Notify | claude_hooks/notifier.py:75-119 | a given flag is used verbatim and both flags fix the notification whatever stdin holds; blank stdin gives `Claude Code` / `Hook executed`; a parse error gives `Claude Code Hook` / `JSON parse error: <msg>`; a non-object gives `Claude Code Hook` / `Error: <e>`; an event gives `Claude Code: <tool>` and the derived text |
| Notifier.Lookup | claude_hooks/notifier.py:32-34 | the result is the application of the first table entry whose fragment occurs in the name, or the default when none occurs |
| Notifier.TerminalApp | claude_hooks/notifier.py:11-38 | a failed or raising `ps` gives `org.alacritty`; otherwise the first match of the lower-cased, stripped process name decides, with `org.alacritty` when nothing matches |
| Notifier.Iterm2Shadowed | claude_hooks/notifier.py:24-26 | the `iterm2` entry is never the first match, because `iterm` precedes it |
| Notifier.AsWrittenScript | claude_hooks/notifier.py:57-61 | the fallback line as the source builds it: `osascript -e '...'` around the AppleScript, with only `"` escaped in the title and text |
| Notifier.ScriptShowsNotification | claude_hooks/notifier.py:57-61 | with the corrected quoting, the AppleScript's first string literal reads back as the text and its second as the title; this is about the AppleScript text, which `osascript` receives only as `Notifier.ScriptIsOneShellWord` states |
| Notifier.ScriptIsOneShellWord | claude_hooks/notifier.py:61-63 | when neither the title nor the text contains `'`, the line's single-quoted shell word opens after `osascript -e ` and closes only at its last character, so `sh` passes the whole AppleScript on |
| Notifier.AsWrittenScriptAgrees | claude_hooks/notifier.py:57-61 | when neither the title nor the text contains a backslash, the line the source builds with quote-only escaping is the corrected line |
| Notifier.QuoteFreeScript | claude_hooks/notifier.py:57-61 | a title and text without `"` go into the source's line unchanged |
| Notifier.ApostropheEndsShellWord | claude_hooks/notifier.py:61-63 | for the text `it's` the source's line closes the shell's single-quoted word right after `it`, inside the text, so `osascript` is not given the AppleScript |
| Notifier.Show | claude_hooks/notifier.py:41-65 | the banner tool always runs first with the resolved terminal; the script fallback runs exactly when the banner fails; a failure is reported exactly when both fail |
| Quoting.Escape | claude_hooks/notifier.py:57-59 | the output is longer by the number of quotes, and every `"` in it is immediately preceded by `\` |
| Quoting.UnescapeEscape | claude_hooks/notifier.py:58-59 | escaping changes nothing but the quotes: undoing it gives back the input |
| Quoting.EscapeNoQuote | claude_hooks/notifier.py:58-59 | text without `"` is left unchanged |
| Quoting.EscapeReadsBackWithoutBackslash | claude_hooks/notifier.py:58-61 | for text without a backslash, the escaped literal reads back as the text |
| Quoting.EscapeIsQuote | claude_hooks/notifier.py:58-59 | without backslashes, the source's escaping and the corrected quoting agree |
| Quoting.EscapeEndsLiteralEarly | claude_hooks/notifier.py:57-61 | the text `\"` escapes to `\\"`, whose literal ends after one backslash and leaves a stray quote |
| Quoting.QuoteReadsBack | claude_hooks/notifier.py:57-61 | with `\` and `"` both escaped, every text reads back exactly, and reading stops at the closing quote |
| Logger.Diagnostic | claude_hooks/logger.py:32-36 | the fallback record has exactly the keys `timestamp`, `error`, `raw_input`, in that order, holding the clock value, `Failed to parse JSON: <msg>` and the input |
| Logger.Entry | claude_hooks/logger.py:26-36 | a parse error gives the diagnostic record; a non-object gives no entry; an object keeps every member except `timestamp`, which becomes the clock value |
| Logger.EntryKeys | claude_hooks/logger.py:29 | the timestamped object keeps its key order, with `timestamp` added last only if it was absent |
| Logger.Invoke | claude_hooks/logger.py:11-42 | a run fails exactly when the input parses to a non-object, and then writes and prints nothing; otherwise it appends the serialized entry plus a newline, then prints `Logged to <path>` |
| Logger.Apply | claude_hooks/logger.py:39-40 | opening the log in append mode and writing only ever extends it: the old content is a prefix of the new, and a run that only prints leaves it unchanged |
| Logger.ApplyAppends | claude_hooks/logger.py:39-40 | the log file only grows: the new content is the old content followed by everything appended |
| Logger.InvokeApplied | claude_hooks/logger.py:39-40 | a successful run leaves the old content plus the serialized entry and a newline; a failed run leaves it unchanged |
| Logger.OneLine | claude_hooks/logger.py:39-42 | appending then printing changes the file by exactly the appended text |
| Logger.CountLine | claude_hooks/logger.py:40 | appending a newline-free line and a newline adds exactly one newline |
| Logger.InvokeConfirmsAfterWrite | claude_hooks/logger.py:39-42 | the confirmation is printed only after an append |
| Logger.OneLinePerRun | claude_hooks/logger.py:39-40 | if serialization is single-line, a successful run adds exactly one line and a failed run adds none |
| Logger.TwoRuns | claude_hooks/logger.py:39-40 | two runs on one file leave the old content followed by both lines, in run order |

## Left out

- Subprocesses (`ps`, `terminal-notifier`, `osascript`, `ruff --version`, `ruff check`) are not run. Their outcomes are parameters.
- argparse, reading stdin and printing are not modelled. Flags are strings, with "" for an absent flag; argparse gives `None` there, and both are falsy. Printed lines are `Ruff.Note` values, and their comments give the source's wording.
- A failure while reading stdin itself, such as a decoding error, is not modelled.
- Standard output and standard error are separate sequences. Their interleaving is not modelled.
- `json.loads` and `json.dumps` are parameters. That `json.dumps` writes one line is library behaviour, so `Logger.OneLinePerRun` takes it as a precondition.
- `datetime.now(timezone.utc).isoformat()` is the opaque `now` string. Its ISO-8601 format is not modelled.
- The logger's `mkdir(parents=True, exist_ok=True)` is not modelled, and neither are I/O faults while writing. The file is modelled as text that only grows at its end.
- The logger prints `Logged to <path>` with `str(Path(...))`, which normalizes the path. The model takes the printed path as given.
- Exception texts are not modelled. They are opaque strings (`fault`, `ProbeRaised`, `LintRaised`) or the abstract `Ruff.Fault` values.
- An exception that `show_notification` itself raises inside `main`'s `try` is not modelled. The source would then show a second, fallback notification.
- Notifier.ReadEvent: a `tool`, `command` or `status` value that is present but not a string goes to the `Error:` fallback. The source would instead format it with Python's `str()`, truncating or raising depending on its type.
- Notifier.TerminalApp: lower-casing covers ASCII letters only. Python's Unicode case mapping (for example the Kelvin sign lowering to `k`) is not modelled.
- Notifier.Show: the fallback script is built with the corrected `Quoting.Quote` (see Findings). The source uses `Quoting.Escape`. Neither version escapes `'` for the shell. An apostrophe in the title or text ends the shell's quoted word early, and what `sh` runs then depends on the rest of the text. For `it's` the line does not parse and the fallback reports a failure (`Notifier.ApostropheEndsShellWord` proves where the word closes). For a balanced pair such as `-m 'x'` the notification shows the text without its apostrophes. Text between such a pair is interpreted by `sh`. A shell quoting for `'` is not modelled.
- Notifier.ScriptShowsNotification: the read-back is proved for the AppleScript built with the corrected quoting. `osascript` receives that AppleScript only when neither the title nor the text contains `'` (`Notifier.ScriptIsOneShellWord`). The line the source builds agrees with the corrected one only when neither contains a backslash (`Notifier.AsWrittenScriptAgrees`), and `Quoting.EscapeEndsLiteralEarly` shows it can fail otherwise. How `sh` reads a word after an apostrophe ends it is not modelled.
- Quoting.ReadLiteral reads only the `\"`, `\\`, `\n`, `\t` and `\r` escapes. A literal with any other escape reads as `None`.
- Paths.Name follows POSIX pure paths and the classic `suffix` rule: the last dot, unless it starts or ends the name.
- Json.Number holds an exact real. Rounding to binary floating point is not modelled, so `1e-400` counts as truthy here while Python reads it as `0.0`. This changes only whether the lint probe runs before exit status 1.
- JSON objects from a parse are taken to have unique keys, as a Python dict does. `Json.Get` reads the first member with a key.

## Findings

| source | as written | input that shows it | evidently intended | confidence | as-written member | corrected member |
|---|---|---|---|---|---|---|
| claude_hooks/notifier.py:57-61 | only `"` is escaped before the text goes into an AppleScript string literal; backslashes pass through | title or text `\"`: it becomes `\\"`, which AppleScript reads as an escaped backslash followed by the closing quote, so the literal ends early and the rest is read as script | the literal denotes exactly the title or text (escape `\` as well as `"`) | medium, not executed | Quoting.EscapeEndsLiteralEarly | Quoting.QuoteReadsBack |

=== FILE: json.dfy ===
/**
 * Parsed JSON values as the hooks see them after `json.loads`: objects keep
 * their members in insertion order, as a Python dict does.
 */
module Json {
  import opened Wrappers

  datatype Json =
    | Null
    | Bool(b: bool)
    | Number(value: real)
    | Str(s: string)
    | Array(items: seq<Json>)
    | Object(members: seq<Member>)

  datatype Member = Member(key: string, value: Json)

  /** Outcome of `json.loads` on a text: a value, or the message of the `JSONDecodeError`. */
  datatype Parse = Parsed(value: Json) | Malformed(message: string)

  function Keys(ms: seq<Member>): (ks: seq<string>)
    ensures |ks| == |ms|
    ensures forall i | 0 <= i < |ms| :: ks[i] == ms[i].key
  {
    if ms == [] then [] else [ms[0].key] + Keys(ms[1..])
  }

  /** No key occurs twice, which holds of every Python dict. */
  predicate UniqueKeys(ms: seq<Member>) {
    forall i, j | 0 <= i < j < |ms| :: ms[i].key != ms[j].key
  }

  /** `d.get(key)` and `key in d`: the value of the first member named `key`. */
  function Get(ms: seq<Member>, key: string): (r: Option<Json>)
    ensures r.None? <==> key !in Keys(ms)
    ensures r.Some? ==> Member(key, r.value) in ms
  {
    if ms == [] then None
    else if ms[0].key == key then Some(ms[0].value)
    else Get(ms[1..], key)
  }

  /**
   * `d[key] = value`: the member named `key` gets the new value in place, or,
   * when there is none, a new member is added at the end.
   */
  function Put(ms: seq<Member>, key: string, value: Json): (r: seq<Member>)
    ensures Get(r, key) == Some(value)
    ensures forall k | k != key :: Get(r, k) == Get(ms, k)
  {
    if ms == [] then [Member(key, value)]
    else if ms[0].key == key then [Member(key, value)] + ms[1..]
    else
      var rest := Put(ms[1..], key, value);
      assert ([ms[0]] + rest)[1..] == rest;
      [ms[0]] + rest
  }

  /** `d[key] = value` keeps the key order, adding `key` last only when it was absent. */
  lemma {:induction false} PutKeys(ms: seq<Member>, key: string, value: Json)
    ensures Keys(Put(ms, key, value)) == if key in Keys(ms) then Keys(ms) else Keys(ms) + [key]
  {
    if ms != [] && ms[0].key != key {
      PutKeys(ms[1..], key, value);
      assert ([ms[0]] + Put(ms[1..], key, value))[1..] == Put(ms[1..], key, value);
      assert Keys(ms) == [ms[0].key] + Keys(ms[1..]);
    }
  }

  /** `d[key] = value` never introduces a duplicate key. */
  lemma {:induction false} PutUnique(ms: seq<Member>, key: string, value: Json)
    requires UniqueKeys(ms)
    ensures UniqueKeys(Put(ms, key, value))
  {
    var r := Put(ms, key, value);
    PutKeys(ms, key, value);
    var ks := Keys(ms);
    forall i, j | 0 <= i < j < |r| ensures r[i].key != r[j].key {
      assert Keys(r)[i] == r[i].key && Keys(r)[j] == r[j].key;
      if key !in ks && j == |ms| {
        assert r[i].key == ks[i];
      } else {
        assert ms[i].key == ks[i] && ms[j].key == ks[j];
      }
    }
  }

  /** Python truthiness of a parsed value: `bool(v)`. */
  predicate Truthy(v: Json) {
    match v
    case Null => false
    case Bool(b) => b
    case Number(x) => x != 0.0
    case Str(s) => s != ""
    case Array(items) => items != []
    case Object(ms) => ms != []
  }
}

=== FILE: logger.dfy ===
/**
 * The logging hook: the entry it builds from its input and the clock, and
 * what it does to the log file, which is text that only grows at its end.
 * `json.loads`, `json.dumps` and the clock are parameters.
 */
module Logger {
  import opened Wrappers
  import opened Json
  import Text

  const TimestampKey := "timestamp"
  const ErrorKey := "error"
  const RawInputKey := "raw_input"

  /** What one run does, in order: append text to the log file, or print a line. */
  datatype Effect = Append(text: string) | Say(line: string)

  /** The effects of one run and its exit status (1 when an exception escapes `main`). */
  datatype Invocation = Invocation(effects: seq<Effect>, status: int)

  /** The record written when the input is not JSON. */
  function Diagnostic(input: string, message: string, now: string): (d: Json)
    ensures d.Object? && Keys(d.members) == [TimestampKey, ErrorKey, RawInputKey] && UniqueKeys(d.members)
    ensures Get(d.members, TimestampKey) == Some(Str(now))
    ensures Get(d.members, ErrorKey) == Some(Str("Failed to parse JSON: " + message))
    ensures Get(d.members, RawInputKey) == Some(Str(input))
  {
    Object([Member(TimestampKey, Str(now)),
            Member(ErrorKey, Str("Failed to parse JSON: " + message)),
            Member(RawInputKey, Str(input))])
  }

  /**
   * The entry for the stripped input `input`, its parse and the clock value;
   * `None` when the timestamp assignment raises because the value is not an object.
   */
  function Entry(input: string, parsed: Parse, now: string): (e: Option<Json>)
    ensures parsed.Malformed? ==> e == Some(Diagnostic(input, parsed.message, now))
    ensures parsed.Parsed? && !parsed.value.Object? ==> e.None?
    // an object keeps every member but the timestamp, which is set to the clock value
    ensures parsed.Parsed? && parsed.value.Object? ==>
      && e.Some? && e.value.Object?
      && Get(e.value.members, TimestampKey) == Some(Str(now))
      && (forall k | k != TimestampKey :: Get(e.value.members, k) == Get(parsed.value.members, k))
  {
    match parsed
    case Malformed(message) => Some(Diagnostic(input, message, now))
    case Parsed(Object(ms)) => Some(Object(Put(ms, TimestampKey, Str(now))))
    case Parsed(_) => None
  }

  /** Key order of a timestamped object: unchanged, with `timestamp` added last only if it was absent. */
  lemma EntryKeys(input: string, ms: seq<Member>, now: string)
    ensures
      var e := Entry(input, Parsed(Object(ms)), now).value.members;
      Keys(e) == if TimestampKey in Keys(ms) then Keys(ms) else Keys(ms) + [TimestampKey]
  {
    PutKeys(ms, TimestampKey, Str(now));
  }

  /** `main` of the logging hook for a log file `path` printed as `path`. */
  function Invoke(path: string, stdin: string, parse: string -> Parse, now: string, dumps: Json -> string)
    : (r: Invocation)
    ensures r.status == 0 || r.status == 1
    // only JSON that is not an object makes the run fail, and then nothing is written or printed
    ensures r.status == 1 <==> parse(Text.Strip(stdin)).Parsed? && !parse(Text.Strip(stdin)).value.Object?
    ensures r.status == 1 ==> r.effects == []
    // otherwise exactly one line is appended, and the confirmation follows it
    ensures r.status == 0 ==>
      var e := Entry(Text.Strip(stdin), parse(Text.Strip(stdin)), now);
      e.Some? && r.effects == [Append(dumps(e.value) + "\n"), Say("Logged to " + path)]
  {
    var input := Text.Strip(stdin);
    match Entry(input, parse(input), now)
    case None => Invocation([], 1)
    case Some(entry) => Invocation([Append(dumps(entry) + "\n"), Say("Logged to " + path)], 0)
  }

  /** The log file's content after the effects. */
  function Apply(content: string, effects: seq<Effect>): (r: string)
    // the file only grows at its end, and only an append grows it
    ensures content <= r
    ensures (forall i | 0 <= i < |effects| :: effects[i].Say?) ==> r == content
    decreases |effects|
  {
    if effects == [] then content
    else
      match effects[0]
      case Append(text) => Apply(content + text, effects[1..])
      case Say(_) => Apply(content, effects[1..])
  }

  /** Everything the effects append, in order. */
  function Appended(effects: seq<Effect>): string {
    if effects == [] then []
    else (if effects[0].Append? then effects[0].text else []) + Appended(effects[1..])
  }

  /** The file only grows at its end: the old content is kept and the appended text follows it. */
  lemma {:induction false} ApplyAppends(content: string, effects: seq<Effect>)
    ensures Apply(content, effects) == content + Appended(effects)
    ensures content <= Apply(content, effects)
    decreases |effects|
  {
    if effects != [] {
      match effects[0]
      case Append(text) =>
        ApplyAppends(content + text, effects[1..]);
        assert content + text + Appended(effects[1..]) == content + (text + Appended(effects[1..]));
      case Say(_) =>
        ApplyAppends(content, effects[1..]);
    }
    assert (content + Appended(effects))[..|content|] == content;
  }

  /** A confirmation is only ever printed after something was appended. */
  predicate ConfirmedAfterWrite(effects: seq<Effect>) {
    forall i | 0 <= i < |effects| && effects[i].Say? :: exists j :: 0 <= j < i && effects[j].Append?
  }

  /** A successful run leaves the old content followed by the serialized entry and a newline; a failed one leaves it as it was. */
  lemma InvokeApplied(content: string, path: string, stdin: string, parse: string -> Parse, now: string,
                      dumps: Json -> string)
    ensures
      var r := Invoke(path, stdin, parse, now, dumps);
      var e := Entry(Text.Strip(stdin), parse(Text.Strip(stdin)), now);
      Apply(content, r.effects) == if r.status == 0 then content + dumps(e.value) + "\n" else content
  {
    var r := Invoke(path, stdin, parse, now, dumps);
    var e := Entry(Text.Strip(stdin), parse(Text.Strip(stdin)), now);
    if r.status == 0 {
      var line := dumps(e.value) + "\n";
      assert r.effects == [Append(line), Say("Logged to " + path)];
      OneLine(content, line, "Logged to " + path);
      Text.Regroup(content, dumps(e.value), "\n");
    } else {
      assert r.effects == [];
    }
  }

  lemma OneLine(content: string, text: string, line: string)
    ensures Apply(content, [Append(text), Say(line)]) == content + text
  {
    var effects := [Append(text), Say(line)];
    assert effects[1..] == [Say(line)];
    assert [Say(line)][1..] == [];
    assert Apply(content + text, [Say(line)]) == Apply(content + text, []);
    assert Apply(content, effects) == Apply(content + text, effects[1..]);
  }

  lemma {:induction false} CountLine(content: string, line: string)
    requires '\n' !in line
    ensures Text.Count(content + line + "\n", '\n') == Text.Count(content, '\n') + 1
  {
    Text.CountAppend(content + line, "\n", '\n');
    Text.CountAppend(content, line, '\n');
    Text.CountAbsent(line, '\n');
    assert Text.Count("\n", '\n') == 1 by {
      assert "\n"[1..] == [];
    }
  }

  /** A write followed by its confirmation keeps the confirmation after the write. */
  lemma AppendThenSay(text: string, line: string)
    ensures ConfirmedAfterWrite([Append(text), Say(line)])
  {
    var effects := [Append(text), Say(line)];
    forall i | 0 <= i < |effects| && effects[i].Say?
      ensures exists j :: 0 <= j < i && effects[j].Append?
    {
      assert effects[0].Append?;
    }
  }

  /** Every run prints its confirmation only after its append. */
  lemma InvokeConfirmsAfterWrite(path: string, stdin: string, parse: string -> Parse, now: string,
                                 dumps: Json -> string)
    ensures ConfirmedAfterWrite(Invoke(path, stdin, parse, now, dumps).effects)
  {
    var r := Invoke(path, stdin, parse, now, dumps);
    if r.status == 0 {
      var e := Entry(Text.Strip(stdin), parse(Text.Strip(stdin)), now).value;
      AppendThenSay(dumps(e) + "\n", "Logged to " + path);
    }
  }

  /** One run adds exactly one line to the file when the serialized entry is a single line. */
  lemma {:induction false} OneLinePerRun(content: string, path: string, stdin: string, parse: string -> Parse,
                                         now: string, dumps: Json -> string)
    requires forall j :: '\n' !in dumps(j)
    ensures var r := Invoke(path, stdin, parse, now, dumps);
      Text.Count(Apply(content, r.effects), '\n') == Text.Count(content, '\n') + (if r.status == 0 then 1 else 0)
  {
    var r := Invoke(path, stdin, parse, now, dumps);
    InvokeApplied(content, path, stdin, parse, now, dumps);
    if r.status == 0 {
      var e := Entry(Text.Strip(stdin), parse(Text.Strip(stdin)), now).value;
      CountLine(content, dumps(e));
    }
  }

  /** Two runs on the same file leave the old content followed by both lines, in order. */
  lemma TwoRuns(content: string, path: string, stdin1: string, stdin2: string, parse: string -> Parse,
                now1: string, now2: string, dumps: Json -> string)
    requires Invoke(path, stdin1, parse, now1, dumps).status == 0
    requires Invoke(path, stdin2, parse, now2, dumps).status == 0
    ensures
      var e1 := Entry(Text.Strip(stdin1), parse(Text.Strip(stdin1)), now1).value;
      var e2 := Entry(Text.Strip(stdin2), parse(Text.Strip(stdin2)), now2).value;
      var once := Apply(content, Invoke(path, stdin1, parse, now1, dumps).effects);
      Apply(once, Invoke(path, stdin2, parse, now2, dumps).effects) == content + dumps(e1) + "\n" + dumps(e2) + "\n"
  {
    InvokeApplied(content, path, stdin1, parse, now1, dumps);
    var once := Apply(content, Invoke(path, stdin1, parse, now1, dumps).effects);
    InvokeApplied(once, path, stdin2, parse, now2, dumps);
  }
}

=== FILE: notifier.dfy ===
/**
 * The notification hook: the title and text it derives from its flags and
 * its input, the terminal it targets, and the commands it starts to show the
 * notification. Reading stdin, `json.loads`, `ps` and the two notification
 * programs are given as parameters or outcomes.
 */
module Notifier {
  import opened Wrappers
  import opened Json
  import Text
  import Quoting

  const Product := "Claude Code"
  const FallbackTitle := "Claude Code Hook"
  const DefaultText := "Hook executed"
  const UnknownTool := "Unknown"
  const CommandLimit := 50
  const CommandKeep := 47
  const Separator := " | "

  datatype Notification = Notification(title: string, text: string)

  /** Python's `flag or default` for an optional string flag: absent and "" both give way. */
  function Or(flag: string, default: string): (r: string)
    ensures flag != "" ==> r == flag
    ensures flag == "" ==> r == default
  {
    if flag != "" then flag else default
  }

  /** A command longer than the limit is cut to its first 47 characters and `...`. */
  function Truncate(command: string): (r: string)
    ensures |r| <= CommandLimit || r == command
    ensures |command| <= CommandLimit ==> r == command
    ensures |command| > CommandLimit ==> |r| == CommandLimit && r[..CommandKeep] == command[..CommandKeep]
    ensures |command| > CommandLimit ==> r[CommandKeep..] == "..."
  {
    if |command| > CommandLimit then command[..CommandKeep] + "..." else command
  }

  /** The derived text: the command part and the status part that are present, joined by ` | `. */
  function Message(command: string, status: string): (m: string)
    ensures command != "" && status != "" ==> m == "Command: " + Truncate(command) + " | Status: " + status
    ensures command != "" && status == "" ==> m == "Command: " + Truncate(command)
    ensures command == "" && status != "" ==> m == "Status: " + status
    ensures command == "" && status == "" ==> m == DefaultText
  {
    var parts := (if command != "" then ["Command: " + Truncate(command)] else [])
      + (if status != "" then ["Status: " + status] else []);
    var m := Text.Join(if parts == [] then [DefaultText] else parts, Separator);
    if command != "" && status != "" then
      TwoParts(Truncate(command), status);
      m
    else m
  }

  /** Both parts present: they are joined by ` | `. */
  lemma TwoParts(command: string, status: string)
    ensures Text.Join(["Command: " + command, "Status: " + status], Separator)
         == "Command: " + command + " | Status: " + status
  {
    Text.JoinPair("Command: " + command, "Status: " + status, Separator);
    assert Separator + ("Status: " + status) == " | Status: " + status;
  }

  /** The three fields the hook reads from its input, with their defaults applied. */
  datatype Event = Event(tool: string, command: string, status: string)

  /** A field read with `data.get(key, default)`; `None` when the value is present but not a string. */
  function Field(ms: seq<Member>, key: string, default: string): (r: Option<string>)
    ensures Get(ms, key).None? ==> r == Some(default)
    ensures r.Some? && Get(ms, key).Some? ==> Get(ms, key) == Some(Str(r.value))
    ensures r.None? <==> Get(ms, key).Some? && !Get(ms, key).value.Str?
  {
    match Get(ms, key)
    case None => Some(default)
    case Some(Str(s)) => Some(s)
    case Some(_) => None
  }

  /** The event of a parsed input; `None` when `data.get` raises (the input is not an object) or a field is not text. */
  function ReadEvent(data: Json): (e: Option<Event>)
    ensures !data.Object? ==> e.None?
    ensures e.Some? ==>
      && Field(data.members, "tool", UnknownTool) == Some(e.value.tool)
      && Field(data.members, "command", "") == Some(e.value.command)
      && Field(data.members, "status", "") == Some(e.value.status)
    // an object whose three fields are absent or text always yields its event
    ensures (&& data.Object? && Field(data.members, "tool", UnknownTool).Some?
             && Field(data.members, "command", "").Some? && Field(data.members, "status", "").Some?) ==>
      e.Some?
  {
    match data
    case Object(ms) =>
      (match (Field(ms, "tool", UnknownTool), Field(ms, "command", ""), Field(ms, "status", ""))
       case (Some(tool), Some(command), Some(status)) => Some(Event(tool, command, status))
       case _ => None)
    case _ => None
  }

  /**
   * `main` up to the call of `show_notification`: the notification shown for the
   * `--title` and `--message` flags ("" when absent), the stdin text, the
   * parser, and the text of the exception raised when the input is not a
   * usable object.
   */
  function Notify(titleFlag: string, messageFlag: string, stdin: string, parse: string -> Parse, fault: string)
    : (n: Notification)
    // each flag, when given, is used verbatim; with both given nothing else matters
    ensures titleFlag != "" ==> n.title == titleFlag
    ensures messageFlag != "" ==> n.text == messageFlag
    ensures titleFlag != "" && messageFlag != "" ==> n == Notification(titleFlag, messageFlag)
    // blank input: fixed defaults, whatever the parser would say
    ensures Text.AllSpace(stdin) ==> n == Notification(Or(titleFlag, Product), Or(messageFlag, DefaultText))
    // input that is not JSON
    ensures !Text.AllSpace(stdin) && parse(Text.Strip(stdin)).Malformed? ==>
      n == Notification(Or(titleFlag, FallbackTitle),
                        Or(messageFlag, "JSON parse error: " + parse(Text.Strip(stdin)).message))
    // JSON that is not a usable object
    ensures !Text.AllSpace(stdin) && parse(Text.Strip(stdin)).Parsed? && ReadEvent(parse(Text.Strip(stdin)).value).None? ==>
      n == Notification(Or(titleFlag, FallbackTitle), Or(messageFlag, "Error: " + fault))
    // an event: the tool names the title, command and status make the text
    ensures !Text.AllSpace(stdin) && parse(Text.Strip(stdin)).Parsed? && ReadEvent(parse(Text.Strip(stdin)).value).Some? ==>
      var e := ReadEvent(parse(Text.Strip(stdin)).value).value;
      n == Notification(Or(titleFlag, Product + ": " + e.tool), Or(messageFlag, Message(e.command, e.status)))
  {
    if titleFlag != "" && messageFlag != "" then Notification(titleFlag, messageFlag)
    else
      var input := Text.Strip(stdin);
      Text.StripEmptyIff(stdin);
      if input == "" then Notification(Or(titleFlag, Product), Or(messageFlag, DefaultText))
      else
        match parse(input)
        case Malformed(message) =>
          Notification(Or(titleFlag, FallbackTitle), Or(messageFlag, "JSON parse error: " + message))
        case Parsed(data) =>
          match ReadEvent(data)
          case None => Notification(Or(titleFlag, FallbackTitle), Or(messageFlag, "Error: " + fault))
          case Some(e) =>
            Notification(Or(titleFlag, Product + ": " + e.tool), Or(messageFlag, Message(e.command, e.status)))
  }

  // ---- terminal targeting ----

  /** Process-name fragments and the application each one selects, in lookup order. */
  const Terminals: seq<(string, string)> := [
    ("alacritty", "org.alacritty"),
    ("iterm", "com.googlecode.iterm2"),
    ("iterm2", "com.googlecode.iterm2"),
    ("terminal", "com.apple.Terminal"),
    ("kitty", "net.kovidgoyal.kitty"),
    ("wezterm", "com.github.wez.wezterm")
  ]

  const DefaultTerminal := "org.alacritty"

  /** How `ps -p <ppid> -o comm=` ended: its exit code and output, or an exception. */
  datatype Ps = PsExited(code: int, stdout: string) | PsRaised

  /** Entry `i` is the first whose fragment occurs in `name`. */
  predicate FirstMatch(table: seq<(string, string)>, name: string, i: int) {
    && 0 <= i < |table|
    && Text.Contains(table[i].0, name)
    && forall j | 0 <= j < i :: !Text.Contains(table[j].0, name)
  }

  predicate NoMatch(table: seq<(string, string)>, name: string) {
    forall i | 0 <= i < |table| :: !Text.Contains(table[i].0, name)
  }

  /** The application of the first entry whose fragment occurs in `name`, else `default`. */
  function Lookup(table: seq<(string, string)>, name: string, default: string): (b: string)
    ensures forall i | FirstMatch(table, name, i) :: b == table[i].1
    ensures (NoMatch(table, name) && b == default) || exists i :: FirstMatch(table, name, i) && b == table[i].1
  {
    if table == [] then default
    else if Text.Contains(table[0].0, name) then
      assert FirstMatch(table, name, 0);
      table[0].1
    else
      var b := Lookup(table[1..], name, default);
      assert forall i | FirstMatch(table, name, i) :: i > 0 && FirstMatch(table[1..], name, i - 1);
      assert forall i | FirstMatch(table[1..], name, i) :: FirstMatch(table, name, i + 1) by {
        forall i | FirstMatch(table[1..], name, i) ensures FirstMatch(table, name, i + 1) {
          assert forall j | 1 <= j < i + 1 :: table[j] == table[1..][j - 1];
        }
      }
      b
  }

  /** `get_terminal_app`: the lower-cased, stripped process name looked up in the table. */
  function TerminalApp(ps: Ps): (b: string)
    ensures ps.PsRaised? || ps.code != 0 ==> b == DefaultTerminal
    ensures ps.PsExited? && ps.code == 0 ==>
      var name := Text.Lower(Text.Strip(ps.stdout));
      (NoMatch(Terminals, name) && b == DefaultTerminal) || exists i :: FirstMatch(Terminals, name, i) && b == Terminals[i].1
  {
    match ps
    case PsExited(code, stdout) =>
      if code == 0 then Lookup(Terminals, Text.Lower(Text.Strip(stdout)), DefaultTerminal) else DefaultTerminal
    case PsRaised => DefaultTerminal
  }

  /** The `iterm2` entry never decides: `iterm` comes first and occurs wherever `iterm2` does. */
  lemma Iterm2Shadowed(name: string)
    ensures !FirstMatch(Terminals, name, 2)
  {
    if Text.Contains("iterm2", name) {
      assert "iterm" + "2" == "iterm2";
      Text.ContainsExtension("iterm", "2", name);
      assert Terminals[1].0 == "iterm";
    }
  }

  // ---- dispatch ----

  /** A started process: an argument vector, or a line run by the shell. */
  datatype Command = Argv(args: seq<string>) | Shell(line: string)

  /** The processes `show_notification` starts, and whether it reported a failure on stderr. */
  datatype Dispatch = Dispatch(commands: seq<Command>, reported: bool)

  function BannerCommand(n: Notification, bundle: string): seq<string> {
    ["terminal-notifier", "-title", n.title, "-message", n.text, "-sound", "default", "-activate", bundle]
  }

  const ShellLead := "osascript -e '"
  const AppleLead := "display notification \""
  const TitleLead := " with title \""
  const SoundEnd := " sound name \"default\""

  /**
   * `display notification "<text>" with title "<title>" sound name "default"`,
   * given the two strings already quoted for the literals.
   */
  function AppleScript(text: string, title: string): string {
    AppleLead + (text + ("\"" + (TitleLead + (title + ("\"" + SoundEnd)))))
  }

  /** The shell line of the fallback: the AppleScript as one single-quoted word after `osascript -e `. */
  function ShellLine(script: string): string {
    ShellLead + (script + "'")
  }

  /** The AppleScript fallback line, with both strings quoted by `Quoting.Quote`. */
  function ScriptCommand(n: Notification): string {
    ShellLine(AppleScript(Quoting.Quote(n.text), Quoting.Quote(n.title)))
  }

  /** The fallback line as the source builds it, with only `"` escaped in both strings. */
  function AsWrittenScript(n: Notification): string {
    ShellLine(AppleScript(Quoting.Escape(n.text), Quoting.Escape(n.title)))
  }

  /** Without backslashes in the title or text, the source's line is the corrected one. */
  lemma {:induction false} AsWrittenScriptAgrees(n: Notification)
    requires '\\' !in n.title && '\\' !in n.text
    ensures AsWrittenScript(n) == ScriptCommand(n)
  {
    Quoting.EscapeIsQuote(n.text);
    Quoting.EscapeIsQuote(n.title);
  }

  /** A character absent from both quoted strings, from the fixed text and from `"` is absent from the script. */
  lemma AppleScriptAvoids(text: string, title: string, c: char)
    requires c !in text && c !in title && c != '"'
    requires c !in AppleLead && c !in TitleLead && c !in SoundEnd
    ensures c !in AppleScript(text, title)
  {
    var tail := "\"" + SoundEnd;
    assert c !in tail;
    var second := title + tail;
    assert c !in second;
    var third := TitleLead + second;
    assert c !in third;
    var fourth := "\"" + third;
    assert c !in fourth;
    var fifth := text + fourth;
    assert c !in fifth;
    assert AppleScript(text, title) == AppleLead + fifth;
  }

  /**
   * Without `'` in the title or text, `sh` hands `osascript -e` the whole
   * AppleScript: the single-quoted word opened by `ShellLead` closes only at
   * the line's last character.
   */
  lemma {:induction false} ScriptIsOneShellWord(n: Notification)
    requires '\'' !in n.title && '\'' !in n.text
    ensures
      var line := ScriptCommand(n);
      && |line| > |ShellLead|
      && line[..|ShellLead|] == ShellLead
      && line[|line| - 1] == '\''
      && line[|ShellLead|..|line| - 1] == AppleScript(Quoting.Quote(n.text), Quoting.Quote(n.title))
      && '\'' !in line[|ShellLead|..|line| - 1]
  {
    Quoting.QuoteAvoids(n.text, '\'');
    Quoting.QuoteAvoids(n.title, '\'');
    var script := AppleScript(Quoting.Quote(n.text), Quoting.Quote(n.title));
    AppleScriptAvoids(Quoting.Quote(n.text), Quoting.Quote(n.title), '\'');
    var line := ShellLead + (script + "'");
    assert line[..|ShellLead|] == ShellLead;
    assert line[|ShellLead|..|line| - 1] == script;
  }

  /** The first `'` of the script, at `k`, is where `sh` closes the quoted word of the line. */
  lemma ShellWordCloses(script: string, k: nat)
    requires k < |script| && script[k] == '\'' && '\'' !in script[..k]
    ensures
      var line := ShellLine(script);
      && |line| > |ShellLead| + k
      && line[..|ShellLead|] == ShellLead
      && line[|ShellLead| + k] == '\''
      && '\'' !in line[|ShellLead|..|ShellLead| + k]
  {
    var line := ShellLead + (script + "'");
    assert line[..|ShellLead|] == ShellLead;
    assert line[|ShellLead|..|ShellLead| + k] == script[..k];
  }

  /**
   * With an apostrophe in the text, `it's`, the source's line closes the
   * shell's single-quoted word inside the text, right after `it`; the rest is
   * not the AppleScript, so `osascript` is not given the notification.
   */
  lemma ApostropheEndsShellWord()
    ensures
      var line := AsWrittenScript(Notification("T", "it's"));
      var close := |ShellLead| + |AppleLead| + 2;
      && |line| > close
      && line[..|ShellLead|] == ShellLead
      && line[close] == '\''
      && '\'' !in line[|ShellLead|..close]
  {
    var script := AppleScript("it's", "T");
    QuoteFreeScript("it's", "T");
    ApostropheInScript();
    ShellWordCloses(script, |AppleLead| + 2);
  }

  /** Text and title without `"` are put into the source's line unchanged. */
  lemma QuoteFreeScript(text: string, title: string)
    requires '"' !in text && '"' !in title
    ensures AsWrittenScript(Notification(title, text)) == ShellLine(AppleScript(text, title))
  {
    Quoting.EscapeNoQuote(text);
    Quoting.EscapeNoQuote(title);
  }

  /** In the script for `it's`, the first `'` is the one after `it`. */
  lemma ApostropheInScript()
    ensures
      var script := AppleScript("it's", "T");
      && |script| > |AppleLead| + 2
      && script[|AppleLead| + 2] == '\''
      && '\'' !in script[..|AppleLead| + 2]
  {
    var x := "\"" + (TitleLead + ("T" + ("\"" + SoundEnd)));
    var script := AppleScript("it's", "T");
    assert script == AppleLead + ("it's" + x);
    assert script[..|AppleLead| + 2] == AppleLead + "it";
    assert '\'' !in AppleLead + "it";
  }

  /** The AppleScript's two string literals read back as the notification's text and title. */
  lemma {:induction false} ScriptShowsNotification(n: Notification)
    ensures
      var script := AppleScript(Quoting.Quote(n.text), Quoting.Quote(n.title));
      && |script| >= |AppleLead|
      && script[..|AppleLead|] == AppleLead
      && ReadsAs(script[|AppleLead|..], n)
  {
    var second := Quoting.Quote(n.title) + ("\"" + SoundEnd);
    var after := TitleLead + second;
    var rest := Quoting.Quote(n.text) + ("\"" + after);
    var script := AppleScript(Quoting.Quote(n.text), Quoting.Quote(n.title));
    assert script == AppleLead + rest;
    assert script[..|AppleLead|] == AppleLead;
    assert script[|AppleLead|..] == rest;
    Quoting.QuoteReadsBack(n.text, after);
    Quoting.QuoteReadsBack(n.title, SoundEnd);
    assert after[..|TitleLead|] == TitleLead;
    assert after[|TitleLead|..] == second;
  }

  /** After the opening quote, the first literal denotes the text and, after ` with title "`, the second the title. */
  predicate ReadsAs(t: string, n: Notification) {
    match Quoting.ReadLiteral(t)
    case None => false
    case Some(first) =>
      && first.0 == n.text
      && |first.1| >= |TitleLead| && first.1[..|TitleLead|] == TitleLead
      && Quoting.ReadLiteral(first.1[|TitleLead|..]).Some?
      && Quoting.ReadLiteral(first.1[|TitleLead|..]).value.0 == n.title
  }

  /**
   * `show_notification`: the banner tool first; if it fails or is missing, the
   * AppleScript fallback; a failing fallback is reported, never raised.
   */
  function Show(n: Notification, ps: Ps, bannerOk: bool, scriptOk: bool): (d: Dispatch)
    ensures |d.commands| >= 1 && d.commands[0] == Argv(BannerCommand(n, TerminalApp(ps)))
    ensures bannerOk ==> d == Dispatch([Argv(BannerCommand(n, TerminalApp(ps)))], false)
    ensures !bannerOk ==> |d.commands| == 2 && d.commands[1] == Shell(ScriptCommand(n))
    ensures d.reported <==> !bannerOk && !scriptOk
  {
    var banner := Argv(BannerCommand(n, TerminalApp(ps)));
    if bannerOk then Dispatch([banner], false)
    else Dispatch([banner, Shell(ScriptCommand(n))], !scriptOk)
  }
}

=== FILE: paths.dfy ===
/**
 * The part of `pathlib.PurePosixPath` the lint hook relies on: the final
 * component of a path (`name`) and its extension (`suffix`).
 */
module Paths {

  /** The text after the last `/` of `p`, or all of `p` when it has none. */
  function LastSegment(p: string): (seg: string)
    ensures '/' !in seg
    ensures |seg| <= |p| && seg == p[|p| - |seg|..]
  {
    if p == [] || p[|p| - 1] == '/' then []
    else
      var seg := LastSegment(p[..|p| - 1]) + [p[|p| - 1]];
      assert p[|p| - |seg|..] == p[..|p| - 1][|p| - |seg|..] + [p[|p| - 1]];
      seg
  }

  /**
   * `PurePosixPath(p).name`: the last component once empty components (from
   * repeated or trailing `/`) and `.` components are dropped; "" when none is left.
   */
  function Name(p: string): (n: string)
    ensures '/' !in n
    ensures n != "."
    decreases |p|
  {
    if p == [] then []
    else if p[|p| - 1] == '/' then Name(p[..|p| - 1])
    else
      var seg := LastSegment(p);
      if seg == "." then Name(p[..|p| - 1]) else seg
  }

  /** Index of the last `.` in `s`, or -1: Python's `s.rfind('.')`. */
  function LastDot(s: string): (i: int)
    ensures -1 <= i < |s|
    ensures i >= 0 ==> s[i] == '.'
    ensures forall j | i < j < |s| :: s[j] != '.'
  {
    if s == [] then -1
    else if s[|s| - 1] == '.' then |s| - 1
    else LastDot(s[..|s| - 1])
  }

  /** `PurePath.suffix` of a final component: from its last `.`, unless that dot leads or ends the name. */
  function Suffix(name: string): string {
    var i := LastDot(name);
    if 0 < i < |name| - 1 then name[i..] else ""
  }

  /** `is_python_file`: the path's suffix is exactly `.py` (case matters). */
  predicate IsPythonFile(p: string) {
    Suffix(Name(p)) == ".py"
  }

  /** A path names a Python file exactly when its final component is at least one character followed by `.py`. */
  lemma PythonFileIff(p: string)
    ensures IsPythonFile(p) <==> (var n := Name(p); |n| >= 4 && n[|n| - 3..] == ".py")
  {
    var n := Name(p);
    var i := LastDot(n);
    if |n| >= 4 && n[|n| - 3..] == ".py" {
      assert n[|n| - 3] == '.' && n[|n| - 2] == 'p' && n[|n| - 1] == 'y';
      assert i == |n| - 3;
    }
  }

  lemma {:induction false} NameOfPlainName(p: string)
    requires p != [] && p != "." && '/' !in p
    ensures Name(p) == p
  {
    SegmentOfPlainName(p);
  }

  lemma {:induction false} SegmentOfPlainName(p: string)
    requires '/' !in p
    ensures LastSegment(p) == p
  {
    if p != [] {
      assert '/' !in p[..|p| - 1];
      SegmentOfPlainName(p[..|p| - 1]);
    }
  }

  /** Concrete cases of the suffix rule on bare file names. */
  lemma PythonFileExamples()
    ensures IsPythonFile("a.py")
    ensures !IsPythonFile(".py") && !IsPythonFile("a.PY") && !IsPythonFile("b.txt")
  {
    NameOfPlainName("a.py");
    NameOfPlainName(".py");
    NameOfPlainName("a.PY");
    NameOfPlainName("b.txt");
    PythonFileIff("a.py");
    PythonFileIff(".py");
    PythonFileIff("a.PY");
    PythonFileIff("b.txt");
  }
}

=== FILE: quoting.dfy ===
/**
 * Quoting of notification text for the AppleScript fallback. `Escape` is the
 * notifier's escaping as written (only `"` is escaped); `ReadLiteral` is how
 * AppleScript reads a string literal; `Quote` also escapes the backslash,
 * which is what reading the literal back needs.
 */
module Quoting {
  import opened Wrappers
  import Text

  /** `s.replace('"', '\\"')`. */
  function Escape(s: string): (r: string)
    ensures |r| == |s| + Text.Count(s, '"')
    ensures forall i | 0 <= i < |r| && r[i] == '"' :: i > 0 && r[i - 1] == '\\'
  {
    if s == [] then []
    else
      var rest := Escape(s[1..]);
      var head := if s[0] == '"' then "\\\"" else [s[0]];
      assert forall i | |head| <= i < |head| + |rest| :: (head + rest)[i] == rest[i - |head|];
      head + rest
  }

  /** Undoes `Escape`: every `\"` pair becomes `"`. */
  function Unescape(t: string): string {
    if t == [] then []
    else if |t| >= 2 && t[0] == '\\' && t[1] == '"' then "\"" + Unescape(t[2..])
    else [t[0]] + Unescape(t[1..])
  }

  /** Escaping loses nothing: the original text is recovered from the escaped one. */
  lemma {:induction false} UnescapeEscape(s: string)
    ensures Unescape(Escape(s)) == s
  {
    if s != [] {
      var rest := Escape(s[1..]);
      UnescapeEscape(s[1..]);
      if s[0] == '"' {
        assert Escape(s) == "\\\"" + rest;
        assert ("\\\"" + rest)[2..] == rest;
      } else {
        assert Escape(s) == [s[0]] + rest;
        assert ([s[0]] + rest)[1..] == rest;
        assert rest != [] ==> rest[0] != '"';
      }
      assert s == [s[0]] + s[1..];
    }
  }

  /** Text without a `"` is left exactly as it is. */
  lemma {:induction false} EscapeNoQuote(s: string)
    requires '"' !in s
    ensures Escape(s) == s
  {
    if s != [] {
      EscapeNoQuote(s[1..]);
      assert s == [s[0]] + s[1..];
    }
  }

  /** The character an AppleScript backslash escape stands for, for the escapes this model reads. */
  function Unbackslash(c: char): Option<char> {
    if c == '"' then Some('"')
    else if c == '\\' then Some('\\')
    else if c == 'n' then Some('\n')
    else if c == 't' then Some('\t')
    else if c == 'r' then Some('\r')
    else None
  }

  /**
   * Reads an AppleScript string literal whose opening `"` is already consumed:
   * the text it denotes and what follows its closing `"`, or `None` when it is
   * not closed or holds an escape outside the model.
   */
  function ReadLiteral(t: string): Option<(string, string)>
    decreases |t|
  {
    if t == [] then None
    else if t[0] == '"' then Some(([], t[1..]))
    else if t[0] == '\\' then
      if |t| < 2 then None
      else
        match Unbackslash(t[1])
        case None => None
        case Some(c) =>
          match ReadLiteral(t[2..])
          case None => None
          case Some(p) => Some(([c] + p.0, p.1))
    else
      match ReadLiteral(t[1..])
      case None => None
      case Some(p) => Some(([t[0]] + p.0, p.1))
  }

  /** Escapes `\` as `\\` and `"` as `\"`. */
  function Quote(s: string): (r: string)
    ensures |r| == |s| + Text.Count(s, '"') + Text.Count(s, '\\')
  {
    if s == [] then []
    else (if s[0] == '"' || s[0] == '\\' then ['\\', s[0]] else [s[0]]) + Quote(s[1..])
  }

  /** A character other than `\` that the text lacks is not introduced by quoting it. */
  lemma {:induction false} QuoteAvoids(s: string, c: char)
    requires c !in s && c != '\\'
    ensures c !in Quote(s)
  {
    if s != [] {
      QuoteAvoids(s[1..], c);
      assert Quote(s) == (if s[0] == '"' || s[0] == '\\' then ['\\', s[0]] else [s[0]]) + Quote(s[1..]);
    }
  }

  /** Whatever `s` holds, the literal `"` + Quote(s) + `"` denotes `s`, and reading stops right after it. */
  lemma {:induction false} QuoteReadsBack(s: string, tail: string)
    ensures ReadLiteral(Quote(s) + ("\"" + tail)) == Some((s, tail))
  {
    if s == [] {
      assert Quote(s) + ("\"" + tail) == "\"" + tail;
    } else {
      var head := if s[0] == '"' || s[0] == '\\' then ['\\', s[0]] else [s[0]];
      var after := Quote(s[1..]) + ("\"" + tail);
      QuoteReadsBack(s[1..], tail);
      assert Quote(s) == head + Quote(s[1..]);
      assert Quote(s) + ("\"" + tail) == head + after;
      if s[0] == '"' || s[0] == '\\' {
        ReadEscaped(s[0], after, s[1..], tail);
      } else {
        ReadPlain(s[0], after, s[1..], tail);
      }
      assert s == [s[0]] + s[1..];
    }
  }

  lemma ReadEscaped(c: char, rest: string, x: string, tail: string)
    requires c == '"' || c == '\\'
    requires ReadLiteral(rest) == Some((x, tail))
    ensures ReadLiteral(['\\', c] + rest) == Some(([c] + x, tail))
  {
    assert (['\\', c] + rest)[2..] == rest;
  }

  lemma ReadPlain(c: char, rest: string, x: string, tail: string)
    requires c != '"' && c != '\\'
    requires ReadLiteral(rest) == Some((x, tail))
    ensures ReadLiteral([c] + rest) == Some(([c] + x, tail))
  {
    assert ([c] + rest)[1..] == rest;
  }

  /** As written, the escaping reads back correctly whenever the text holds no backslash. */
  lemma {:induction false} EscapeReadsBackWithoutBackslash(s: string, tail: string)
    requires '\\' !in s
    ensures ReadLiteral(Escape(s) + ("\"" + tail)) == Some((s, tail))
  {
    EscapeIsQuote(s);
    QuoteReadsBack(s, tail);
  }

  /** Without backslashes in the text the two escapings agree. */
  lemma {:induction false} EscapeIsQuote(s: string)
    requires '\\' !in s
    ensures Escape(s) == Quote(s)
  {
    if s != [] {
      assert '\\' !in s[1..];
      EscapeIsQuote(s[1..]);
    }
  }

  /**
   * As written, the text `\"` is escaped to `\\"`, which AppleScript reads as
   * an escaped backslash followed by the closing quote: the literal ends early
   * and the rest of the text is read as script.
   */
  lemma EscapeEndsLiteralEarly()
    ensures Escape("\\\"") == "\\\\\""
    ensures ReadLiteral(Escape("\\\"") + "\"") == Some(("\\", "\""))
    ensures ReadLiteral(Escape("\\\"") + "\"") != Some(("\\\"", ""))
  {
    assert Escape("\\\"") == "\\" + Escape("\"");
    assert Escape("\"") == "\\\"" + Escape("");
    var t := "\\\\\"\"";
    assert Escape("\\\"") + "\"" == t;
    assert t[2..] == "\"\"";
    assert ReadLiteral(t[2..]) == Some(([], "\""));
    assert t[0] == '\\' && t[1] == '\\' && |t| >= 2;
    assert Unbackslash(t[1]) == Some('\\');
    assert ReadLiteral(t) == Some((['\\'] + [], "\""));
    assert ['\\'] + [] == "\\";
  }
}

=== FILE: ruff.dfy ===
/**
 * The lint hook: which file list it takes from its JSON input, which entries
 * it keeps, which `ruff` commands it starts and which exit status it returns.
 * The two subprocesses (`ruff --version` and the lint command) are outcomes
 * passed in; the model returns the argument vectors it would start.
 */
module Ruff {
  import opened Wrappers
  import opened Json
  import Text
  import Paths

  /** The availability probe. */
  const ProbeCommand: seq<string> := ["ruff", "--version"]

  /** How `ruff --version` ended: it ran, it failed or was not found, or it raised something else. */
  datatype Probe = Installed | Missing | ProbeRaised(error: string)

  /** How the lint command ended: its exit code and captured streams, or an exception while starting it. */
  datatype Lint = Exited(code: int, stdout: string, stderr: string) | LintRaised(error: string)

  /** An exception that leaves `run_ruff` and is caught by `main`. */
  datatype Fault = ProbeFault(error: string) | NotIterable | NotAPath

  datatype Status = Passed | Failed | Raised(fault: Fault)

  /** The lines the hook prints; the comment gives the source's wording. */
  datatype Note =
    | NothingToProcess                  // "No Python files to process"
    | NoPythonFiles                     // "No Python files found to process"
    | Relay(text: string)               // the linter's own stdout or stderr
    | Completed(mode: string, n: nat)   // "✓ ruff <mode> completed successfully on <n> file(s)"
    | FoundIssues(mode: string, n: nat) // "✗ ruff <mode> found issues in <n> file(s)"
    | NotInstalled                      // "Error: ruff is not installed. ..."
    | UnknownMode(mode: string)         // "Error: Unknown mode '<mode>'. ..."
    | RunError(error: string)           // "Error running ruff: <e>"
    | NoInput                           // "No input data provided"
    | BadJson(message: string)          // "Error parsing JSON input: <e>"
    | NoFiles                           // "No files found in input data"
    | Unexpected(fault: Fault)          // "Error: <e>"

  datatype Run = Run(status: Status, invoked: seq<seq<string>>, out: seq<Note>, err: seq<Note>)

  datatype Exit = Exit(code: int, invoked: seq<seq<string>>, out: seq<Note>, err: seq<Note>)

  /** `[f for f in files if is_python_file(f)]` over path strings. */
  function PythonFiles(fs: seq<string>): (py: seq<string>)
    ensures forall x :: x in py <==> x in fs && Paths.IsPythonFile(x)
    ensures forall x :: multiset(py)[x] == if Paths.IsPythonFile(x) then multiset(fs)[x] else 0
  {
    if fs == [] then []
    else
      var rest := PythonFiles(fs[1..]);
      assert fs == [fs[0]] + fs[1..];
      (if Paths.IsPythonFile(fs[0]) then [fs[0]] else []) + rest
  }

  /** `a` is `b` with some entries removed and the rest in their original order. */
  predicate IsSubsequence<T(==)>(a: seq<T>, b: seq<T>)
    decreases |b|
  {
    if a == [] then true
    else if b == [] then false
    else (a[0] == b[0] && IsSubsequence(a[1..], b[1..])) || IsSubsequence(a, b[1..])
  }

  /** The filter keeps the relative order of the entries it keeps. */
  lemma {:induction false} PythonFilesInOrder(fs: seq<string>)
    ensures IsSubsequence(PythonFiles(fs), fs)
  {
    if fs != [] {
      PythonFilesInOrder(fs[1..]);
      var rest := PythonFiles(fs[1..]);
      if Paths.IsPythonFile(fs[0]) {
        assert PythonFiles(fs) == [fs[0]] + rest;
        assert ([fs[0]] + rest)[1..] == rest;
      } else {
        assert PythonFiles(fs) == rest;
      }
    }
  }

  /** Filtering a concatenation filters each part. */
  lemma {:induction false} PythonFilesAppend(a: seq<string>, b: seq<string>)
    ensures PythonFiles(a + b) == PythonFiles(a) + PythonFiles(b)
  {
    if a == [] {
      assert a + b == b;
    } else {
      assert (a + b)[0] == a[0] && (a + b)[1..] == a[1..] + b;
      PythonFilesAppend(a[1..], b);
      var head := if Paths.IsPythonFile(a[0]) then [a[0]] else [];
      assert PythonFiles(a + b) == head + PythonFiles(a[1..] + b);
      assert PythonFiles(a) == head + PythonFiles(a[1..]);
      Text.Regroup(head, PythonFiles(a[1..]), PythonFiles(b));
    }
  }

  /** The `ruff` argument vector for a mode, or `None` for a mode the hook does not know. */
  function Command(mode: string, py: seq<string>): (cmd: Option<seq<string>>)
    ensures cmd.Some? <==> mode == "check" || mode == "fix"
    ensures cmd.Some? ==> |cmd.value| == |py| + (if mode == "fix" then 3 else 2)
    ensures cmd.Some? ==> cmd.value[..2] == ["ruff", "check"] && cmd.value[|cmd.value| - |py|..] == py
    ensures cmd.Some? ==> ("--fix" in cmd.value[..|cmd.value| - |py|] <==> mode == "fix")
  {
    if mode == "check" then Some(["ruff", "check"] + py)
    else if mode == "fix" then Some(["ruff", "check", "--fix"] + py)
    else None
  }

  /** What Python's `for f in v` yields for a parsed value: list items, one-character strings, or dict keys. */
  function Iterate(v: Json): (r: Option<seq<Json>>)
    ensures r.Some? <==> v.Array? || v.Str? || v.Object?
    ensures r.Some? ==> (|r.value| == 0 <==> !Truthy(v))
    // a list yields its items, a string its characters, an object its keys, in order
    ensures v.Array? ==> r == Some(v.items)
    ensures v.Str? ==> r.Some? && |r.value| == |v.s| && forall i | 0 <= i < |v.s| :: r.value[i] == Str([v.s[i]])
    ensures v.Object? ==>
      r.Some? && |r.value| == |v.members| && forall i | 0 <= i < |v.members| :: r.value[i] == Str(v.members[i].key)
  {
    match v
    case Array(items) => Some(items)
    case Str(s) => Some(seq(|s|, i requires 0 <= i < |s| => Str([s[i]])))
    case Object(ms) => Some(seq(|ms|, i requires 0 <= i < |ms| => Str(ms[i].key)))
    case _ => None
  }

  /** The strings of `items`, or `None` when one of them is not a string (`Path()` then raises). */
  function AsPaths(items: seq<Json>): (r: Option<seq<string>>)
    ensures r.Some? <==> forall i | 0 <= i < |items| :: items[i].Str?
    ensures r.Some? ==> |r.value| == |items| && forall i | 0 <= i < |items| :: items[i] == Str(r.value[i])
  {
    if items == [] then Some([])
    else if !items[0].Str? then None
    else
      match AsPaths(items[1..])
      case None => None
      case Some(rest) => Some([items[0].s] + rest)
  }

  /** The entries `run_ruff` filters, or the `TypeError` that filtering them raises. */
  function Entries(files: Json): (r: Result<seq<string>, Fault>)
    // only a list, a string or an object can be iterated
    ensures r == Failure(NotIterable) <==> !(files.Array? || files.Str? || files.Object?)
    // a string's characters and an object's keys are always paths; a list's items only when all are strings
    ensures files.Str? || files.Object? ==> r.Success?
    ensures files.Array? ==> (r.Success? <==> forall i | 0 <= i < |files.items| :: files.items[i].Str?)
    ensures files.Array? && r.Success? ==>
      |r.value| == |files.items| && forall i | 0 <= i < |files.items| :: files.items[i] == Str(r.value[i])
    // the entries are empty exactly for a falsy value
    ensures r.Success? ==> (r.value == [] <==> !Truthy(files))
  {
    match Iterate(files)
    case None => Failure(NotIterable)
    case Some(items) =>
      match AsPaths(items)
      case None => Failure(NotAPath)
      case Some(paths) => Success(paths)
  }

  /** `run_ruff(files, mode)` with the outcomes of its two subprocesses given. */
  function RunRuff(files: Json, mode: string, probe: Probe, lint: Lint): (r: Run)
    // an empty list succeeds before anything is started
    ensures !Truthy(files) ==> r.status == Passed && r.invoked == []
    // otherwise the probe is the first command, and at most one more follows it
    ensures Truthy(files) ==> 1 <= |r.invoked| <= 2 && r.invoked[0] == ProbeCommand
    // the lint command runs only on a non-empty list of Python files, after a good probe
    ensures |r.invoked| == 2 ==>
      && probe.Installed? && Entries(files).Success?
      && var py := PythonFiles(Entries(files).value);
         py != [] && Command(mode, py) == Some(r.invoked[1])
    // and it does run whenever those conditions hold
    ensures (&& Truthy(files) && probe.Installed? && Entries(files).Success?
             && var py := PythonFiles(Entries(files).value); py != [] && Command(mode, py).Some?) ==>
      r.invoked == [ProbeCommand, Command(mode, PythonFiles(Entries(files).value)).value]
    ensures r.status == Passed <==>
      || !Truthy(files)
      || (&& probe.Installed? && Entries(files).Success?
          && var py := PythonFiles(Entries(files).value);
             py == [] || (Command(mode, py).Some? && lint.Exited? && lint.code == 0))
    ensures r.status.Raised? ==> Truthy(files) && !probe.Missing? && (probe.Installed? ==> Entries(files).Failure?)
  {
    if !Truthy(files) then Run(Passed, [], [NothingToProcess], [])
    else
      match probe
      case Missing => Run(Failed, [ProbeCommand], [], [NotInstalled])
      case ProbeRaised(e) => Run(Raised(ProbeFault(e)), [ProbeCommand], [], [])
      case Installed =>
        match Entries(files)
        case Failure(fault) => Run(Raised(fault), [ProbeCommand], [], [])
        case Success(paths) =>
          var py := PythonFiles(paths);
          if py == [] then Run(Passed, [ProbeCommand], [NoPythonFiles], [])
          else
            match Command(mode, py)
            case None => Run(Failed, [ProbeCommand], [], [UnknownMode(mode)])
            case Some(cmd) =>
              match lint
              case LintRaised(e) => Run(Failed, [ProbeCommand, cmd], [], [RunError(e)])
              case Exited(code, stdout, stderr) =>
                var out := (if stdout != "" then [Relay(stdout)] else [])
                  + [if code == 0 then Completed(mode, |py|) else FoundIssues(mode, |py|)];
                var err := if stderr != "" then [Relay(stderr)] else [];
                Run(if code == 0 then Passed else Failed, [ProbeCommand, cmd], out, err)
  }

  /** The file list `main` takes from its input, before any check of its shape. */
  function FilesOf(data: Json): (files: Json)
    // a "files" member wins and is used as it is
    ensures data.Object? && Get(data.members, "files").Some? ==> files == Get(data.members, "files").value
    // then "file", then "file_path", each as a one-element list
    ensures data.Object? && Get(data.members, "files").None? && Get(data.members, "file").Some? ==>
      files == Array([Get(data.members, "file").value])
    ensures (data.Object? && Get(data.members, "files").None? && Get(data.members, "file").None?
             && Get(data.members, "file_path").Some?) ==>
      files == Array([Get(data.members, "file_path").value])
    // a list is used as it is; anything else gives no files
    ensures data.Array? ==> files == data
    ensures !data.Object? && !data.Array? ==> files == Array([])
    ensures (data.Object? && forall k | k in ["files", "file", "file_path"] :: Get(data.members, k).None?) ==>
      files == Array([])
  {
    match data
    case Object(ms) =>
      if Get(ms, "files").Some? then Get(ms, "files").value
      else if Get(ms, "file").Some? then Array([Get(ms, "file").value])
      else if Get(ms, "file_path").Some? then Array([Get(ms, "file_path").value])
      else Array([])
    case Array(_) => data
    case _ => Array([])
  }

  /** The mode `main` passes on: `--fix` wins, `--check` changes nothing. */
  function ModeOf(fix: bool, check: bool): (mode: string)
    ensures mode == "fix" || mode == "check"
    ensures mode == "fix" <==> fix
  {
    if fix then "fix" else "check"
  }

  /** `main` of the lint hook: flags, stdin text and the subprocess outcomes in, exit status and effects out. */
  function Main(fix: bool, check: bool, stdin: string, parse: string -> Parse, probe: Probe, lint: Lint): (r: Exit)
    ensures r.code == 0 || r.code == 1
    // blank input and malformed JSON fail before anything is started
    ensures Text.Strip(stdin) == "" ==> r == Exit(1, [], [], [NoInput])
    ensures Text.Strip(stdin) != "" && parse(Text.Strip(stdin)).Malformed? ==>
      r == Exit(1, [], [], [BadJson(parse(Text.Strip(stdin)).message)])
    // an empty file list fails before the probe
    ensures (Text.Strip(stdin) != "" && parse(Text.Strip(stdin)).Parsed?
             && !Truthy(FilesOf(parse(Text.Strip(stdin)).value))) ==>
      r == Exit(1, [], [], [NoFiles])
    // otherwise the status is that of run_ruff, and so are the commands started
    ensures r.code == 0 <==>
      && Text.Strip(stdin) != "" && parse(Text.Strip(stdin)).Parsed?
      && var files := FilesOf(parse(Text.Strip(stdin)).value);
         Truthy(files) && RunRuff(files, ModeOf(fix, check), probe, lint).status == Passed
    ensures r.invoked != [] ==>
      && Text.Strip(stdin) != "" && parse(Text.Strip(stdin)).Parsed?
      && r.invoked == RunRuff(FilesOf(parse(Text.Strip(stdin)).value), ModeOf(fix, check), probe, lint).invoked
    ensures (&& Text.Strip(stdin) != "" && parse(Text.Strip(stdin)).Parsed?
             && Truthy(FilesOf(parse(Text.Strip(stdin)).value))) ==>
      r.invoked == RunRuff(FilesOf(parse(Text.Strip(stdin)).value), ModeOf(fix, check), probe, lint).invoked
  {
    var input := Text.Strip(stdin);
    if input == "" then Exit(1, [], [], [NoInput])
    else
      match parse(input)
      case Malformed(message) => Exit(1, [], [], [BadJson(message)])
      case Parsed(data) =>
        var files := FilesOf(data);
        if !Truthy(files) then Exit(1, [], [], [NoFiles])
        else
          var run := RunRuff(files, ModeOf(fix, check), probe, lint);
          var err := run.err + (if run.status.Raised? then [Unexpected(run.status.fault)] else []);
          Exit(if run.status == Passed then 0 else 1, run.invoked, run.out, err)
  }

  /** `{"files": ["a.py", "b.txt"]}` lints `a.py` alone. */
  lemma MixedListExample(lint: Lint)
    ensures
      var data := Object([Member("files", Array([Str("a.py"), Str("b.txt")]))]);
      RunRuff(FilesOf(data), "check", Installed, lint).invoked == [ProbeCommand, ["ruff", "check", "a.py"]]
  {
    var data := Object([Member("files", Array([Str("a.py"), Str("b.txt")]))]);
    var files := Array([Str("a.py"), Str("b.txt")]);
    assert Get(data.members, "files") == Some(files);
    assert FilesOf(data) == files;
    MixedListRun(lint);
  }

  lemma MixedListRun(lint: Lint)
    ensures RunRuff(Array([Str("a.py"), Str("b.txt")]), "check", Installed, lint).invoked
      == [ProbeCommand, ["ruff", "check", "a.py"]]
  {
    var files := Array([Str("a.py"), Str("b.txt")]);
    EntriesOfStrings(files.items, ["a.py", "b.txt"]);
    assert Truthy(files);
    assert Entries(files) == Success(["a.py", "b.txt"]);
    MixedListFilter();
    CheckCommandExample();
  }

  lemma CheckCommandExample()
    ensures Command("check", ["a.py"]) == Some(["ruff", "check", "a.py"])
  {
    assert ["ruff", "check"] + ["a.py"] == ["ruff", "check", "a.py"];
  }

  lemma MixedListFilter()
    ensures PythonFiles(["a.py", "b.txt"]) == ["a.py"]
  {
    Paths.PythonFileExamples();
    assert PythonFiles(["b.txt"]) == [];
    assert ["a.py", "b.txt"][1..] == ["b.txt"];
  }

  /** `{"files": ["b.txt"]}` succeeds after the probe and starts no lint command. */
  lemma NoPythonListExample(lint: Lint)
    ensures
      var data := Object([Member("files", Array([Str("b.txt")]))]);
      RunRuff(FilesOf(data), "check", Installed, lint) == Run(Passed, [ProbeCommand], [NoPythonFiles], [])
  {
    var data := Object([Member("files", Array([Str("b.txt")]))]);
    var files := Array([Str("b.txt")]);
    assert Get(data.members, "files") == Some(files);
    assert FilesOf(data) == files;
    EntriesOfStrings([Str("b.txt")], ["b.txt"]);
    assert Truthy(files);
    assert Entries(files) == Success(["b.txt"]);
    Paths.PythonFileExamples();
    assert PythonFiles(["b.txt"]) == [];
  }

  lemma EntriesOfStrings(items: seq<Json>, paths: seq<string>)
    requires |items| == |paths| && forall i | 0 <= i < |items| :: items[i] == Str(paths[i])
    ensures Entries(Array(items)) == Success(paths)
  {
    assert AsPaths(items).Some?;
    assert AsPaths(items).value == paths;
  }
}

=== FILE: text.dfy ===
/**
 * String helpers with Python's meaning: `str.strip()`, `str.lower()` on
 * ASCII letters, the `in` substring test, `str.join` and character counts.
 */
module Text {

  /** Characters for which Python's `str.isspace()` holds; `str.strip()` removes them. */
  predicate IsSpace(c: char) {
    || ('\t' <= c <= '\r')
    || ('\U{1C}' <= c <= '\U{1F}')
    || c == ' ' || c == '\U{85}' || c == '\U{A0}' || c == '\U{1680}'
    || ('\U{2000}' <= c <= '\U{200A}')
    || c == '\U{2028}' || c == '\U{2029}' || c == '\U{202F}' || c == '\U{205F}' || c == '\U{3000}'
  }

  /** Every character of `s` is whitespace (vacuously so for ""). */
  predicate AllSpace(s: string) {
    forall i | 0 <= i < |s| :: IsSpace(s[i])
  }

  function TrimStart(s: string): (r: string)
    ensures |r| <= |s| && r == s[|s| - |r|..]
    ensures AllSpace(s[..|s| - |r|])
    ensures r == [] || !IsSpace(r[0])
  {
    if s != [] && IsSpace(s[0]) then
      var r := TrimStart(s[1..]);
      assert s[..|s| - |r|] == [s[0]] + s[1..][..|s| - 1 - |r|];
      r
    else s
  }

  function TrimEnd(s: string): (r: string)
    ensures |r| <= |s| && r == s[..|r|]
    ensures AllSpace(s[|r|..])
    ensures r == [] || !IsSpace(r[|r| - 1])
  {
    if s != [] && IsSpace(s[|s| - 1]) then
      var r := TrimEnd(s[..|s| - 1]);
      assert s[|r|..] == s[..|s| - 1][|r|..] + [s[|s| - 1]];
      r
    else s
  }

  /** `r` is `s` with leading and trailing whitespace removed and no more. */
  predicate IsStripOf(r: string, s: string) {
    && (r == [] || (!IsSpace(r[0]) && !IsSpace(r[|r| - 1])))
    && exists i | 0 <= i <= |s| - |r| :: s[i..i + |r|] == r && AllSpace(s[..i]) && AllSpace(s[i + |r|..])
  }

  /** Python's `str.strip()` with no argument. */
  function Strip(s: string): (r: string)
    ensures IsStripOf(r, s)
  {
    var t := TrimStart(s);
    var r := TrimEnd(t);
    StripWitness(s, t, r);
    r
  }

  lemma StripWitness(s: string, t: string, r: string)
    requires |t| <= |s| && t == s[|s| - |t|..] && AllSpace(s[..|s| - |t|])
    requires |r| <= |t| && r == t[..|r|] && AllSpace(t[|r|..])
    requires r == [] || (!IsSpace(r[0]) && !IsSpace(r[|r| - 1]))
    ensures IsStripOf(r, s)
  {
    var i := |s| - |t|;
    assert s[i..i + |r|] == r;
    assert s[i + |r|..] == t[|r|..];
  }

  /** The stripped text is empty exactly when the input is all whitespace. */
  lemma {:induction false} StripEmptyIff(s: string)
    ensures Strip(s) == [] <==> AllSpace(s)
  {
    var t := TrimStart(s);
    if TrimEnd(t) == [] {
      assert AllSpace(t[0..]);
      assert t[0..] == t;
      AllSpaceConcat(s[..|s| - |t|], t);
      assert s[..|s| - |t|] + t == s;
    }
  }

  lemma AllSpaceConcat(a: string, b: string)
    requires AllSpace(a) && AllSpace(b)
    ensures AllSpace(a + b)
  {
    forall i | 0 <= i < |a + b| ensures IsSpace((a + b)[i]) {
      if i < |a| { assert (a + b)[i] == a[i]; } else { assert (a + b)[i] == b[i - |a|]; }
    }
  }

  /** Stripping twice is stripping once. */
  lemma {:induction false} StripIdempotent(s: string)
    ensures Strip(Strip(s)) == Strip(s)
  {
    var r := Strip(s);
    if r != [] {
      assert TrimStart(r) == r;
      assert TrimEnd(r) == r;
    }
  }

  /** `c` lower-cased when it is an ASCII capital; any other character is kept. */
  function LowerChar(c: char): char {
    if 'A' <= c <= 'Z' then (c as int - 'A' as int + 'a' as int) as char else c
  }

  /** Python's `str.lower()`, restricted to the ASCII case mapping. */
  function Lower(s: string): (r: string)
    ensures |r| == |s|
    ensures forall i | 0 <= i < |s| :: r[i] == LowerChar(s[i])
  {
    seq(|s|, i requires 0 <= i < |s| => LowerChar(s[i]))
  }

  /** `k` occurs in `s` starting at index `i`. */
  predicate OccursAt(k: string, s: string, i: int) {
    0 <= i && i + |k| <= |s| && s[i..i + |k|] == k
  }

  /** Python's `k in s` for strings. */
  function Contains(k: string, s: string): (b: bool)
    ensures b <==> exists i :: OccursAt(k, s, i)
    decreases |s|
  {
    if |s| < |k| then false
    else if s[..|k|] == k then
      assert OccursAt(k, s, 0);
      true
    else
      var b := Contains(k, s[1..]);
      assert forall i | OccursAt(k, s[1..], i) :: OccursAt(k, s, i + 1) by {
        forall i | OccursAt(k, s[1..], i) ensures OccursAt(k, s, i + 1) {
          assert s[1..][i..i + |k|] == s[i + 1..i + 1 + |k|];
        }
      }
      assert forall i | OccursAt(k, s, i) :: i > 0 && OccursAt(k, s[1..], i - 1) by {
        forall i | OccursAt(k, s, i) ensures i > 0 && OccursAt(k, s[1..], i - 1) {
          assert s[1..][i - 1..i - 1 + |k|] == s[i..i + |k|];
        }
      }
      b
  }

  /** A key that extends `k` can only occur where `k` occurs. */
  lemma {:induction false} ContainsExtension(k: string, x: string, s: string)
    requires Contains(k + x, s)
    ensures Contains(k, s)
  {
    var i :| OccursAt(k + x, s, i);
    assert s[i..i + |k|] == s[i..i + |k + x|][..|k|] == (k + x)[..|k|] == k;
    assert OccursAt(k, s, i);
  }

  /** Python's `sep.join(parts)`. */
  function Join(parts: seq<string>, sep: string): string {
    if |parts| == 0 then ""
    else if |parts| == 1 then parts[0]
    else parts[0] + sep + Join(parts[1..], sep)
  }

  lemma JoinPair(a: string, b: string, sep: string)
    ensures Join([a, b], sep) == a + sep + b
  {
    assert [a, b][1..] == [b];
  }

  /** Number of occurrences of `c` in `s`. */
  function Count(s: string, c: char): nat {
    if s == [] then 0 else (if s[0] == c then 1 else 0) + Count(s[1..], c)
  }

  lemma {:induction false} CountAppend(a: string, b: string, c: char)
    ensures Count(a + b, c) == Count(a, c) + Count(b, c)
  {
    if a != [] {
      assert (a + b)[1..] == a[1..] + b;
      CountAppend(a[1..], b, c);
    } else {
      assert a + b == b;
    }
  }

  lemma {:induction false} CountAbsent(s: string, c: char)
    ensures Count(s, c) == 0 <==> c !in s
  {
    if s != [] {
      CountAbsent(s[1..], c);
      assert s == [s[0]] + s[1..];
    }
  }

  /** Concatenation regrouped, for proofs whose context makes the general fact costly. */
  lemma Regroup<T>(a: seq<T>, b: seq<T>, c: seq<T>)
    ensures a + (b + c) == a + b + c
  {
  }
}

=== FILE: wrappers.dfy ===
/** Option and Result values for the hooks' "absent" and error outcomes. */
module Wrappers {

  datatype Option<+T> = None | Some(value: T)

  datatype Result<+T, +E> = Success(value: T) | Failure(error: E)
}
